=== FILE: README.md ===
# System files linker — Dafny model

This project models the system-file linker that runs during system activation.
The linker compares the previous generation's file manifest with the next
generation's, and then links, copies or removes files under `/etc`-like paths.
It refuses to touch any file it cannot prove it placed itself, unless the next
manifest pre-authorises that file's content.

The model has these parts:

- **Paths** (`paths.dfy`): the POSIX `dirname` and `join` used to resolve a
  symlink's target relative to the symlink's own directory.
- **Manifests** (`manifests.dfy`): a manifest has a schema version, its paths
  in iteration order, and for each path an entry. An entry holds a store
  source, a type (`link`, `copy`, `remove`, or any other string), a recorded
  digest, and the set of pre-authorised digests. A valid manifest has distinct
  paths and only kinds that a `type` string can name.
- **FileSystems** (`filesystems.dfy`): the live filesystem as a map from path
  to a symlink (with its raw target) or a regular file (with its digest).
- **Transactions** (`transactions.dfy`): source, destination and type. The
  path a transaction touches is its destination, or its source for a removal.
- **Planner** (`planner.dfy`):
  - pass 1 decides, for each next-generation path, between a transaction, a
    problem and nothing;
  - pass 2 plans removals of stale paths that the tool placed and that are
    unchanged.
- **Executor** (`executor.dfy`):
  - apply mode performs the transactions in order, and a removal of a missing
    path raises;
  - dry-run mode renders one shell-like line per transaction.
- **Activation** (`activation.dfy`): a whole run, with its outcomes:
  - an unknown schema version exits 1;
  - problems exit 1 before pass 2 runs and before anything is executed;
  - check-only mode exits 0 after a clean pass 1;
  - otherwise both passes run, followed by a dry run or an apply.
- **Scenarios** (`scenarios.dfy`): concrete runs on a single path.

Copying a store path is abstracted as a function `content` from a source to
the digest of what it produces.

The main results:

- pass 1 refuses exactly the paths no rule vouches for;
- a problem stops the run with nothing changed;
- when every next-generation entry's type is `link` or `copy`, planned
  transactions touch pairwise distinct path names, so applying them never
  raises (path names are taken to denote distinct files, see "Left out"); a
  manifest with a `remove` or unknown type can plan a removal and a placement
  of the same path, and then a removal may raise;
- when in addition every store source is absolute, after a successful apply
  every next-generation entry is in place;
- when every next-generation entry's type is `link` or `copy`, after a
  successful apply removable stale paths are gone and every other path is
  unchanged (a `remove` entry deletes its source, wherever that is);
- when every next-generation entry's type is `link` or `copy` and every store
  source is absolute, a second activation with the same manifest reports no
  problem, provided each copy entry's recorded digest is what copying its
  source produces and no copy entry was placed where a symlink stood;
- past a clean gate, a check-only run and a dry run exit 0 whatever the entry
  types;
- both passes keep manifest order, so dry-run lines and problem messages come in
  the order of the manifest's paths.

The code behaves in ways one might not expect, and the model follows the code:

- A second run is not a no-op. For a symlink the previous generation vouches
  for, pass 1 checks "unchanged since last activation" before "already points
  to the new target". A rerun therefore re-plans every link, and re-plans every
  copy whose digest is recorded. `Activation.RerunFindsNoProblem` states this:
  a rerun has no problems and plans every entry again.
- A symlink that pass 1 may overwrite is always replaced by a link, even when
  the new entry's type is `copy` (line 48). In the run after that, the
  previous generation records a copy over a symlink, which is a problem.
  `Scenarios.LinkToCopyMigrationRelinks` and
  `Scenarios.MigratedLinkBlocksNextRun` show this.
- A symlink with no previous entry is always a problem, even when it already
  points to the new source. The "already points to the new target" case only
  applies when the previous entry was a link.
- Link targets are joined to the link's directory without normalisation. A
  relative link `../store/a` at `/etc/foo` therefore does not match the
  recorded `/store/a` (`Scenarios.RelativeLinkIsProblem`).

## Model

| member | source | states |
|---|---|---|
| Paths.Join | modules/system/files/linker.py:46 | joining keeps an absolute second operand as it is; otherwise the result is the first operand followed by the second, with exactly one '/' inserted between them unless the first is empty or already ends in '/' |
| Paths.ResolveRelativeSibling | modules/system/files/linker.py:45-46 | a relative target of a link at `d/name` resolves to `d/target`, i.e. relative to the link's own directory |
| Paths.ResolveRelativeTopLevel | modules/system/files/linker.py:45-46 | a relative target of a link at a top-level path `/name` resolves to `/target`: the link's directory is the root |
| Paths.DirName | modules/system/files/linker.py:46 | the directory part is a prefix of the path ending before its last component; only slashes separate it from that component; it keeps no trailing slash unless it is all slashes; it is empty exactly when the path has no slash; when everything up to the last slash is slashes, it is all of those slashes |
| Paths.Resolve | modules/system/files/linker.py:45-46 | a link's target as the linker compares it: an absolute target as it is, a relative one appended to the link's directory with one '/' inserted unless the directory is empty or ends in '/'; a link at an absolute path always resolves to an absolute path |
| Manifests.ParseKind | modules/system/files/linker.py:174-184 | reading a type string yields the kind whose name is exactly that string, so unknown types survive with their name |
| Manifests.ParseKindName | modules/system/files/linker.py:174-184 | reading back the name of any kind yields that kind, so `ParseKind` and the kind names are inverse |
| Planner.Classify | modules/system/files/linker.py:34-101 | a path gets a transaction iff nothing is there, its content is pre-authorised, or the previous generation vouches for it; nothing iff a previously linked symlink already designates the new source; a problem otherwise; a symlink without a previous link entry is always a problem; over a symlink the planned type is always `link` |
| Planner.Pass1 | modules/system/files/linker.py:30-101 | every planned transaction is the decision for a next-generation path, and every reported path is one whose decision is a problem |
| Planner.Pass1Complete | modules/system/files/linker.py:32-101 | pass 1 plans every transaction some path calls for and reports every refused path |
| Planner.Pass1Distinct | modules/system/files/linker.py:32-101 | over distinct manifest paths no destination is planned twice and no path is reported twice |
| Planner.Pass1InOrder | modules/system/files/linker.py:32-101 | pass 1's transactions and problems come in the order of their paths in the next generation |
| Planner.Pass1ProblemFree | modules/system/files/linker.py:103-109 | the problem list is empty exactly when no next-generation path is refused |
| Planner.ClassifyStale | modules/system/files/linker.py:122-163 | a stale path is planned for removal iff something is there and the previous generation vouches for it: an unchanged link of a link entry, or an unchanged copy of a copy entry |
| Planner.Pass2 | modules/system/files/linker.py:115-163 | pass 2 plans a removal, of the path itself, for exactly the previous-generation paths that are absent from the next generation and removable, each once |
| Planner.Pass2InOrder | modules/system/files/linker.py:117-157 | pass 2's removals come in the order of their paths in the previous generation |
| Planner.Pass1Subjects | modules/system/files/linker.py:30-101 | when every next-generation entry's type is `link` or `copy`, pass 1 transactions touch distinct next-generation paths and are links or copies |
| Planner.PlannedSubjectsDistinct | modules/system/files/linker.py:30-163 | when every next-generation entry's type is `link` or `copy`, the full planned list touches pairwise distinct paths, and every removal names a live path |
| Planner.UnmanagedFileIsProblem | modules/system/files/linker.py:94-98 | an unknown-content regular file at a path the previous generation does not list is reported and never a destination |
| Planner.FreshPathIsPlaced | modules/system/files/linker.py:99-101 | an empty path gets exactly the entry's own transaction and is not reported |
| Planner.UnchangedLinkIsRetargeted | modules/system/files/linker.py:43-48 | an unchanged previously placed link is re-linked to the new source and not reported |
| Planner.DriftedStaleCopyIsKept | modules/system/files/linker.py:151-160 | a stale copy whose content no longer matches its recorded digest is never touched |
| Executor.Step | modules/system/files/linker.py:184-204 | one transaction fails only when it removes a missing path; otherwise it gives its own path the transaction's effect and changes no other path; an unknown type changes nothing |
| Executor.Execute | modules/system/files/linker.py:165-204 | a run stops only at a removal, and paths no transaction touches are unchanged |
| Executor.ExecuteEstablishes | modules/system/files/linker.py:166-202 | when transactions touch distinct paths and the run finishes, every touched path ends with its transaction's effect |
| Executor.ExecuteCompletes | modules/system/files/linker.py:201-202 | with distinct touched paths and every removal naming a live path, the run never raises |
| Executor.Render | modules/system/files/linker.py:174-182 | a `link`, `copy` or `remove` line starts with `ln -s `, `cp ` or `rm ` and ends with the path the command changes |
| Executor.RenderedKind | modules/system/files/linker.py:174-182 | whatever the paths contain, a rendered command reads back with its own kind, and an unknown type's diagnostic reads back as no command |
| Executor.DryRun | modules/system/files/linker.py:173-182 | a dry run prints one line per transaction, in order |
| Executor.ParseRender | modules/system/files/linker.py:174-182 | a rendered `ln -s`, `cp` or `rm` line parses back to the transaction it came from; an unknown type renders a diagnostic that parses to nothing |
| Activation.Planned | modules/system/files/linker.py:27-163 | the list handed to the executor holds exactly the pass-1 transactions and the removals of the removable stale paths; under the schema every removal comes after every placement |
| Activation.PlannedRunsThrough | modules/system/files/linker.py:115-202 | when every next-generation entry's type is `link` or `copy`, the planned list touches distinct paths and applying it never raises |
| Activation.AfterGate | modules/system/files/linker.py:111-204 | check-only exits 0 with nothing planned or changed; otherwise the planned list is pass 1's transactions followed by pass 2's removals; a dry run leaves the filesystem as it was and prints that list's rendered lines, in order; an apply renders no command lines, ends with the filesystem the execution of that list leaves, and exits 0 exactly when the execution finishes; a dry run exits 0 for any entry types; when every next-generation entry's type is `link` or `copy`, every outcome exits 0 |
| Activation.Activate | modules/system/files/linker.py:19-204 | exit status is 0 or 1; an unknown version exits 1; the problems are exactly the refused next-generation paths; any problem exits 1 before pass 2, with nothing handed to the executor, printed or changed; past the gate and outside check-only mode, the run plans pass 1 then pass 2, a dry run prints each planned line in order, and an apply ends as the execution of the plan does; past a clean gate a check-only run or a dry run exits 0 for any entry types; when every next-generation entry's type is `link` or `copy`, the run succeeds iff the version is 1 and nothing is refused |
| Activation.PlannedSubjects | modules/system/files/linker.py:30-163 | when every next-generation entry's type is `link` or `copy`, every path the planned list touches is a next-generation path with a planned transaction or a removable stale path |
| Activation.EmittedPathAfterApply | modules/system/files/linker.py:46-48 | when every next-generation entry's type is `link` or `copy`, after a successful apply a next-generation path with a planned transaction holds its transaction's effect (a link for a copy entry over a vouched symlink) |
| Activation.LinkedPathAfterApply | modules/system/files/linker.py:49-51 | a next-generation path that pass 1 found already linked to its new source is left as it was by the apply |
| Activation.NextPathAfterApply | modules/system/files/linker.py:32-101 | when every next-generation entry's type is `link` or `copy` and the entry's store source is absolute, after a successful apply the entry is in place |
| Activation.OtherPathAfterApply | modules/system/files/linker.py:115-163 | when every next-generation entry's type is `link` or `copy`, after a successful apply a path outside the next generation is gone if removable and unchanged otherwise |
| Activation.AppliedRun | modules/system/files/linker.py:165-204 | a successful apply's filesystem is the completed execution of the planned list |
| Activation.ActivationConverges | modules/system/files/linker.py:30-204 | when every next-generation entry's type is `link` or `copy` and every store source is absolute, after a successful apply every entry is in place, removable stale paths are gone and all other paths are unchanged |
| Activation.RerunFindsNoProblem | modules/system/files/linker.py:41-51 | with every entry placed as its own previous generation records it, a rerun reports no problem and plans every entry again |
| Activation.ActivationStable | modules/system/files/linker.py:41-98 | after a successful apply of `link`/`copy` entries with absolute sources, the next activation with the same manifest reports no problem, provided each copy entry's digest is what copying its source produces and no copy entry was placed where a symlink stood |
| Scenarios.FreshLinkIsCreated | modules/system/files/linker.py:99-101 | an empty path gets a symlink to the store source |
| Scenarios.FreshLinkIsRendered | modules/system/files/linker.py:173-176 | in dry-run mode the same link is printed as `ln -s` and nothing changes |
| Scenarios.UserFileBlocks | modules/system/files/linker.py:94-109 | a user's file blocks the run with exit status 1 |
| Scenarios.KnownFileIsReplaced | modules/system/files/linker.py:68-71 | a file with pre-authorised content is replaced |
| Scenarios.StaleLinkIsRemoved | modules/system/files/linker.py:134-138 | a dropped, unchanged link is removed |
| Scenarios.CheckOnlyStopsAtGate | modules/system/files/linker.py:111-113 | check-only mode exits before planning removals |
| Scenarios.RelativeTargetIsJoined | modules/system/files/linker.py:45-46 | a relative target is joined to the link's directory, not normalised |
| Scenarios.RelativeLinkIsProblem | modules/system/files/linker.py:45-54 | a relative link designating the old store path textually differs from it and is reported |
| Scenarios.LinkToCopyMigrationRelinks | modules/system/files/linker.py:46-48 | changing an unchanged link entry to a copy entry plans and makes a link, not a copy |
| Scenarios.MigratedLinkBlocksNextRun | modules/system/files/linker.py:38-59 | a symlink at a path whose previous entry is a copy is reported, so the run after such a migration stops |

## Left out

- Argument parsing and JSON loading (lines 9-17): the two manifests are parameters, and the model assumes well-formed, consistent manifests (`Manifest.Valid`).
- The `DRY_RUN` and `CHECK_ONLY` environment switches (lines 23-24): they become the explicit `Mode` parameter.
- SHA-256 hashing (lines 66-67, 153-154): a regular file carries its digest as an opaque string, and copying a store path yields `content(source)`.
- The temporary-name retry loop for links (lines 189-197): the symlink is modelled as an atomic replacement of the destination.
- Missing parent directories (lines 186, 199), copying from a missing store path, and permission errors: these are I/O failures outside the planner's logic.
- Directories and other non-regular nodes at managed paths: a directory makes `open(path, "rb")` raise while hashing, in pass 1 (line 66) or pass 2 (line 153), so the run dies before anything is executed; a FIFO makes that `open` block. `Node` covers only symlinks and regular files.
- `shutil.copy` onto an existing symlink writes through the link. The model replaces the node, and pass 1 never plans a copy over a symlink.
- The problem and diagnostic messages (lines 104-108, 204): the model reports the problem list and the exit status instead of their text.
- Concurrent modification of the filesystem during a run.
- Path aliasing: the filesystem is keyed by path text, so `/etc/foo`, `/etc//foo` and a path reached through a symlinked parent directory are distinct entries although on disk they are one file. Every result about distinct subjects and about runs that never raise (`Executor.ExecuteCompletes`, `Activation.PlannedRunsThrough`, `Activation.ActivationConverges`) assumes that manifest paths are normalised and that no managed parent directory is a symlink. Without that, two removals of aliases of one file make the second `os.remove` (line 202) raise, which the model does not show.
- Executor.ExecuteCompletes: covers only removals of missing paths as a source of exceptions, not the I/O failures listed above.
- Activation.ActivationConverges: requires absolute store sources, which the manifests always carry. A relative source would be compared as written.

=== FILE: activation.dfy ===
/** One run of the linker: plan pass 1, gate on problems, stop early in
    check-only mode, plan pass 2, then render (dry run) or apply. */
module Activation {
  import opened Wrappers
  import opened Paths
  import opened Manifests
  import opened FileSystems
  import opened Transactions
  import opened Planner
  import opened Executor

  /** The two presence-only environment switches, passed explicitly. */
  datatype Mode = Mode(dryRun: bool, checkOnly: bool)

  /** How a run ends: its exit status, the problem paths it reported, the
      transactions it handed to the executor, the lines a dry run printed, and
      the live filesystem afterwards. */
  datatype Outcome = Outcome(exitCode: int, problems: seq<Path>, planned: seq<Transaction>, rendered: seq<string>, fs: FileSystem)

  /** The full planned list once pass 1 found no problem. */
  function Planned(prev: Manifest, next: Manifest, fs: FileSystem): (r: seq<Transaction>)
    requires prev.Valid() && next.Valid()
    ensures forall t :: t in r ==>
      || (t.destination in next.files && Decide(t.destination, prev.files, next.files, fs) == Emit(t))
      || (t == Transaction(t.source, t.source, Remove) && Removable(t.source, prev.files, next.files, fs))
    ensures forall q :: q in next.files && Decide(q, prev.files, next.files, fs).Emit? ==> Decide(q, prev.files, next.files, fs).t in r
    ensures forall q :: Removable(q, prev.files, next.files, fs) ==> Transaction(q, q, Remove) in r
    ensures next.Schema() ==> forall i, j :: 0 <= i < j < |r| && r[i].kind == Remove ==> r[j].kind == Remove
  {
    var a := Pass1(next.paths, prev.files, next.files, fs).transactions;
    var b := Pass2(prev.paths, prev.files, next.files, fs);
    assert forall q :: q in next.files ==> q in next.paths;
    assert forall q :: q in prev.files ==> q in prev.paths;
    Pass1Complete(next.paths, prev.files, next.files, fs);
    Pass1Places(prev, next, fs);
    RemovalsLast(a, b);
    assert forall t :: t in a + b ==> t in a || t in b;
    a + b
  }

  /** Under the schema, pass 1 plans no removal. */
  lemma Pass1Places(prev: Manifest, next: Manifest, fs: FileSystem)
    requires next.Valid()
    ensures next.Schema() ==> forall t :: t in Pass1(next.paths, prev.files, next.files, fs).transactions ==> t.kind != Remove
  {
    if next.Schema() {
      Pass1Subjects(prev.files, next, fs);
    }
  }

  /** Placements followed by removals: every removal comes after every placement. */
  lemma RemovalsLast(a: seq<Transaction>, b: seq<Transaction>)
    ensures (forall t :: t in a ==> t.kind != Remove) && (forall t :: t in b ==> t.kind == Remove) ==>
      forall i, j :: 0 <= i < j < |a + b| && (a + b)[i].kind == Remove ==> (a + b)[j].kind == Remove
  {
    if (forall t :: t in a ==> t.kind != Remove) && (forall t :: t in b ==> t.kind == Remove) {
      var r := a + b;
      forall k | 0 <= k < |a| ensures r[k].kind != Remove {
        assert r[k] == a[k] && a[k] in a;
      }
      forall k | |a| <= k < |r| ensures r[k].kind == Remove {
        assert r[k] == b[k - |a|] && b[k - |a|] in b;
      }
    }
  }

  /** Applying the planned list of schema-conforming manifests never raises:
      its subjects are distinct and every removal names a present path. */
  lemma PlannedRunsThrough(prev: Manifest, next: Manifest, fs: FileSystem, content: Path -> Hash)
    requires prev.Valid() && next.Valid()
    ensures next.Schema() ==> DistinctSubjects(Planned(prev, next, fs))
    ensures next.Schema() ==> Execute(Planned(prev, next, fs), fs, content).Finished?
  {
    if next.Schema() {
      var ts := Planned(prev, next, fs);
      PlannedSubjectsDistinct(prev, next, fs);
      forall i | 0 <= i < |ts| && ts[i].kind == Remove ensures ts[i].source in fs {
        assert ts[i] in ts;
      }
      ExecuteCompletes(ts, fs, content);
    }
  }

  /** What follows a problem-free pass 1: stop (check-only), render, or apply. */
  function AfterGate(prev: Manifest, next: Manifest, fs: FileSystem, content: Path -> Hash, mode: Mode): (r: Outcome)
    requires prev.Valid() && next.Valid()
    ensures r.problems == []
    ensures r.exitCode == 0 || r.exitCode == 1
    ensures mode.checkOnly ==> r.exitCode == 0 && r.planned == [] && r.rendered == [] && r.fs == fs
    ensures mode.dryRun ==> r.exitCode == 0 && r.fs == fs && |r.rendered| == |r.planned|
    ensures !mode.dryRun ==> r.rendered == []
    ensures next.Schema() ==> DistinctSubjects(r.planned) && r.exitCode == 0
    ensures !mode.checkOnly ==> r.planned == Planned(prev, next, fs)
    ensures !mode.checkOnly && mode.dryRun ==> r.rendered == DryRun(r.planned)
    ensures !mode.checkOnly && !mode.dryRun ==>
      r.fs == Execute(r.planned, fs, content).fs && (r.exitCode == 0 <==> Execute(r.planned, fs, content).Finished?)
  {
    if mode.checkOnly then Outcome(0, [], [], [], fs)
    else
      var planned := Planned(prev, next, fs);
      PlannedRunsThrough(prev, next, fs, content);
      if mode.dryRun then Outcome(0, [], planned, DryRun(planned), fs)
      else
        match Execute(planned, fs, content)
        case Finished(fs') => Outcome(0, [], planned, [], fs')
        case Crashed(fs', _) => Outcome(1, [], planned, [], fs')
  }

  /** A run of the linker with `prev` and `next` as the two manifests.
      `content` gives the digest a copy of a store path produces. Problems
      are exactly the next-generation paths pass 1 refuses, and any problem
      stops the run before pass 2 and before anything is executed. */
  function Activate(prev: Manifest, next: Manifest, fs: FileSystem, content: Path -> Hash, mode: Mode): (r: Outcome)
    requires prev.Valid() && next.Valid()
    ensures r.exitCode == 0 || r.exitCode == 1
    ensures next.version != 1 ==> r.exitCode == 1 && r.problems == [] && r.planned == [] && r.fs == fs
    ensures forall q :: q in r.problems <==> next.version == 1 && q in next.files && Decide(q, prev.files, next.files, fs).Problem?
    ensures r.problems == [] <==> next.version != 1 || forall q :: q in next.files ==> !Decide(q, prev.files, next.files, fs).Problem?
    ensures r.problems != [] ==> r.exitCode == 1 && r.planned == [] && r.rendered == [] && r.fs == fs
    ensures mode.checkOnly && r.exitCode == 0 ==> r.planned == [] && r.rendered == [] && r.fs == fs
    ensures mode.dryRun ==> r.fs == fs && |r.rendered| == |r.planned|
    ensures !mode.dryRun ==> r.rendered == []
    ensures next.Schema() ==> DistinctSubjects(r.planned)
    ensures next.Schema() ==> (r.exitCode == 0 <==> next.version == 1 && r.problems == [])
    ensures next.version == 1 && r.problems == [] && (mode.checkOnly || mode.dryRun) ==> r.exitCode == 0
    ensures next.version == 1 && r.problems == [] && !mode.checkOnly ==> r.planned == Planned(prev, next, fs)
    ensures next.version == 1 && r.problems == [] && !mode.checkOnly && mode.dryRun ==> r.rendered == DryRun(r.planned)
    ensures next.version == 1 && r.problems == [] && !mode.checkOnly && !mode.dryRun ==>
      r.fs == Execute(r.planned, fs, content).fs && (r.exitCode == 0 <==> Execute(r.planned, fs, content).Finished?)
  {
    if next.version != 1 then Outcome(1, [], [], [], fs)
    else
      var problems := Pass1(next.paths, prev.files, next.files, fs).problems;
      assert forall q :: q in next.files ==> q in next.paths;
      Pass1ProblemFree(next.paths, prev.files, next.files, fs);
      Pass1Complete(next.paths, prev.files, next.files, fs);
      if problems != [] then Outcome(1, problems, [], [], fs)
      else AfterGate(prev, next, fs, content, mode)
  }

  /** Every live path the planned list touches is a next-generation path that
      pass 1 placed, or a stale path pass 2 may remove. */
  lemma PlannedSubjects(prev: Manifest, next: Manifest, fs: FileSystem)
    requires prev.Valid() && next.Valid() && next.Schema()
    ensures forall q :: q in Subjects(Planned(prev, next, fs)) ==>
      (q in next.files && Decide(q, prev.files, next.files, fs).Emit?) || Removable(q, prev.files, next.files, fs)
  {
    var a := Pass1(next.paths, prev.files, next.files, fs).transactions;
    var b := Pass2(prev.paths, prev.files, next.files, fs);
    Pass1Subjects(prev.files, next, fs);
    forall q | q in Subjects(a + b)
      ensures (q in next.files && Decide(q, prev.files, next.files, fs).Emit?) || Removable(q, prev.files, next.files, fs)
    {
      var t :| t in a + b && Subject(t) == q;
      if t in a {
        assert Decide(t.destination, prev.files, next.files, fs) == Emit(t);
      } else {
        assert t in b;
      }
    }
  }

  /** A live symlink at `p` that designates `source`. */
  predicate LinksTo(p: Path, source: Path, fs: FileSystem) {
    p in fs && fs[p].Symlink? && Resolve(p, fs[p].target) == source
  }

  /** The next-generation entry `e` is in place at `p` in `fs`: a link entry
      is a symlink designating its source, and so is a copy entry where pass 1
      found a symlink (`wasLink`); any other copy entry is a regular file with
      its source's content. */
  predicate InPlace(p: Path, e: Entry, wasLink: bool, fs: FileSystem, content: Path -> Hash) {
    if e.kind == Link || wasLink then LinksTo(p, e.source, fs)
    else Lookup(fs, p) == Some(Regular(content(e.source)))
  }

  /** A next-generation path pass 1 planned a transaction for ends as that
      transaction intends. */
  lemma EmittedPathAfterApply(prev: Manifest, next: Manifest, fs: FileSystem, content: Path -> Hash, p: Path)
    requires prev.Valid() && next.Valid() && next.Schema()
    requires p in next.files && Decide(p, prev.files, next.files, fs).Emit?
    ensures Lookup(Execute(Planned(prev, next, fs), fs, content).fs, p) == Effect(Decide(p, prev.files, next.files, fs).t, content)
  {
    var ts := Planned(prev, next, fs);
    var t := Decide(p, prev.files, next.files, fs).t;
    assert p in next.paths;
    Pass1Complete(next.paths, prev.files, next.files, fs);
    assert t in ts;
    PlannedRunsThrough(prev, next, fs, content);
    Pass1Subjects(prev.files, next, fs);
    ExecuteEstablishes(ts, fs, content);
  }

  /** A next-generation path pass 1 found already linked is left as it was. */
  lemma LinkedPathAfterApply(prev: Manifest, next: Manifest, fs: FileSystem, content: Path -> Hash, p: Path)
    requires prev.Valid() && next.Valid() && next.Schema()
    requires p in next.files && Decide(p, prev.files, next.files, fs).NoOp?
    ensures Lookup(Execute(Planned(prev, next, fs), fs, content).fs, p) == Lookup(fs, p)
  {
    PlannedSubjects(prev, next, fs);
  }

  /** Where a next-generation path ends after a problem-free apply. */
  lemma NextPathAfterApply(prev: Manifest, next: Manifest, fs: FileSystem, content: Path -> Hash, p: Path)
    requires prev.Valid() && next.Valid() && next.Schema()
    requires Pass1(next.paths, prev.files, next.files, fs).problems == []
    requires p in next.files && IsAbsolute(next.files[p].source)
    ensures InPlace(p, next.files[p], p in fs && fs[p].Symlink?, Execute(Planned(prev, next, fs), fs, content).fs, content)
  {
    assert p in next.paths;
    Pass1Complete(next.paths, prev.files, next.files, fs);
    assert Resolve(p, next.files[p].source) == next.files[p].source;
    if Decide(p, prev.files, next.files, fs).Emit? {
      EmittedPathAfterApply(prev, next, fs, content, p);
    } else {
      LinkedPathAfterApply(prev, next, fs, content, p);
    }
  }

  /** Where a path outside the next generation ends after a problem-free
      apply: removed if pass 2 may remove it, untouched otherwise. */
  lemma OtherPathAfterApply(prev: Manifest, next: Manifest, fs: FileSystem, content: Path -> Hash, p: Path)
    requires prev.Valid() && next.Valid() && next.Schema()
    requires p !in next.files
    ensures Removable(p, prev.files, next.files, fs) ==> p !in Execute(Planned(prev, next, fs), fs, content).fs
    ensures !Removable(p, prev.files, next.files, fs) ==> Lookup(Execute(Planned(prev, next, fs), fs, content).fs, p) == Lookup(fs, p)
  {
    var ts := Planned(prev, next, fs);
    PlannedRunsThrough(prev, next, fs, content);
    PlannedSubjects(prev, next, fs);
    if Removable(p, prev.files, next.files, fs) {
      assert p in prev.paths;
      var t := Transaction(p, p, Remove);
      assert t in Pass2(prev.paths, prev.files, next.files, fs);
      assert t in ts;
      ExecuteEstablishes(ts, fs, content);
    }
  }

  /** A successful apply run is a problem-free pass 1 followed by executing
      the planned list. */
  lemma AppliedRun(prev: Manifest, next: Manifest, fs: FileSystem, content: Path -> Hash, mode: Mode)
    requires prev.Valid() && next.Valid()
    requires !mode.dryRun && !mode.checkOnly
    requires Activate(prev, next, fs, content, mode).exitCode == 0
    ensures next.version == 1
    ensures Pass1(next.paths, prev.files, next.files, fs).problems == []
    ensures Activate(prev, next, fs, content, mode).fs == Execute(Planned(prev, next, fs), fs, content).fs
  {
    assert Pass1(next.paths, prev.files, next.files, fs).problems == [];
    assert Activate(prev, next, fs, content, mode) == AfterGate(prev, next, fs, content, mode);
  }

  /** After a successful apply the live filesystem matches the next
      generation: every link entry is a symlink designating its source, every
      copy entry is a copy of its source (or, where a symlink stood before, a
      symlink designating it), tool-placed unchanged stale paths are gone, and
      every other path is as it was. */
  lemma ActivationConverges(prev: Manifest, next: Manifest, fs: FileSystem, content: Path -> Hash, mode: Mode)
    requires prev.Valid() && next.Valid() && next.Schema()
    requires !mode.dryRun && !mode.checkOnly
    requires forall p :: p in next.files ==> IsAbsolute(next.files[p].source)
    requires Activate(prev, next, fs, content, mode).exitCode == 0
    ensures forall p :: p in next.files ==>
      InPlace(p, next.files[p], p in fs && fs[p].Symlink?, Activate(prev, next, fs, content, mode).fs, content)
    ensures forall p :: p !in next.files && Removable(p, prev.files, next.files, fs) ==>
      p !in Activate(prev, next, fs, content, mode).fs
    ensures forall p :: p !in next.files && !Removable(p, prev.files, next.files, fs) ==>
      Lookup(Activate(prev, next, fs, content, mode).fs, p) == Lookup(fs, p)
  {
    AppliedRun(prev, next, fs, content, mode);
    forall p | p in next.files
      ensures InPlace(p, next.files[p], p in fs && fs[p].Symlink?, Activate(prev, next, fs, content, mode).fs, content)
    {
      NextPathAfterApply(prev, next, fs, content, p);
    }
    forall p | p !in next.files
      ensures Removable(p, prev.files, next.files, fs) ==> p !in Activate(prev, next, fs, content, mode).fs
      ensures !Removable(p, prev.files, next.files, fs) ==> Lookup(Activate(prev, next, fs, content, mode).fs, p) == Lookup(fs, p)
    {
      OtherPathAfterApply(prev, next, fs, content, p);
    }
  }

  /** `e` sits at `p` the way a following run, with `e` as its previous
      generation, recognises as the tool's own: a link designating the
      source, or a regular file with the recorded digest. */
  predicate Placed(p: Path, e: Entry, live: Option<Node>) {
    match e.kind
    case Link => live.Some? && live.value.Symlink? && Resolve(p, live.value.target) == e.source
    case Copy => live == Some(Regular(e.hash))
    case _ => false
  }

  /** An entry placed as its own previous generation records it is vouched
      for, so pass 1 plans it again. */
  lemma PlacedIsReplanned(p: Path, e: Entry, live: Option<Node>)
    requires Placed(p, e, live)
    ensures Classify(p, Some(e), e, live) == Emit(Transaction(e.source, p, e.kind))
  {
    assert Vouches(p, e, live.value);
  }

  /** Running again with the same manifest as both generations, over a
      filesystem where every entry is placed, reports no problem; unlike a
      no-op, it plans the same link or copy again for every path. */
  lemma RerunFindsNoProblem(next: Manifest, fs: FileSystem, content: Path -> Hash, mode: Mode)
    requires next.Valid()
    requires forall p :: p in next.files ==> Placed(p, next.files[p], Lookup(fs, p))
    ensures Activate(next, next, fs, content, mode).problems == []
    ensures next.version == 1 && !mode.checkOnly ==>
      forall p :: p in next.files ==>
        Transaction(next.files[p].source, p, next.files[p].kind) in Activate(next, next, fs, content, mode).planned
  {
    var r := Activate(next, next, fs, content, mode);
    forall p | p in next.files
      ensures Decide(p, next.files, next.files, fs) == Emit(Transaction(next.files[p].source, p, next.files[p].kind))
    {
      PlacedIsReplanned(p, next.files[p], Lookup(fs, p));
    }
    if next.version == 1 && !mode.checkOnly {
      Pass1Complete(next.paths, next.files, next.files, fs);
      forall p | p in next.files
        ensures Transaction(next.files[p].source, p, next.files[p].kind) in r.planned
      {
        assert p in next.paths;
        assert r.planned == Planned(next, next, fs);
      }
    }
  }

  /** After a successful apply, the next activation with the same manifest
      reports no problem, provided each copy entry's recorded digest is what
      copying its source yields and no copy entry replaced a symlink. */
  lemma ActivationStable(prev: Manifest, next: Manifest, fs: FileSystem, content: Path -> Hash, mode: Mode, again: Mode)
    requires prev.Valid() && next.Valid() && next.Schema()
    requires !mode.dryRun && !mode.checkOnly
    requires forall p :: p in next.files ==> IsAbsolute(next.files[p].source)
    requires forall p :: p in next.files && next.files[p].kind == Copy ==>
      content(next.files[p].source) == next.files[p].hash && !(p in fs && fs[p].Symlink?)
    requires Activate(prev, next, fs, content, mode).exitCode == 0
    ensures Activate(next, next, Activate(prev, next, fs, content, mode).fs, content, again).problems == []
  {
    var fs' := Activate(prev, next, fs, content, mode).fs;
    ActivationConverges(prev, next, fs, content, mode);
    forall p | p in next.files ensures Placed(p, next.files[p], Lookup(fs', p)) {
      assert InPlace(p, next.files[p], p in fs && fs[p].Symlink?, fs', content);
    }
    RerunFindsNoProblem(next, fs', content, again);
  }
}

=== FILE: executor.dfy ===
/** The transaction executor: apply mode as a transformer of the abstract
    filesystem, dry-run mode as one rendered command line per transaction. */
module Executor {
  import opened Wrappers
  import opened Paths
  import opened Manifests
  import opened FileSystems
  import opened Transactions

  /** The outcome of applying a list: it ran to the end, or the transaction at
      index `at` raised (`os.remove` of a path that is not there), leaving the
      filesystem as the earlier transactions made it. */
  datatype Execution = Finished(fs: FileSystem) | Crashed(fs: FileSystem, at: nat)

  /** What a transaction of a known kind leaves at its subject: a symlink to
      the store path, a regular file with the store path's content, or nothing.
      `content` gives the digest of what copying a store path produces. */
  function Effect(t: Transaction, content: Path -> Hash): Option<Node> {
    match t.kind
    case Link => Some(Symlink(t.source))
    case Copy => Some(Regular(content(t.source)))
    case _ => None
  }

  /** Apply one transaction. `link` replaces the destination atomically by a
      symlink to the source; `copy` writes the source's content; `remove`
      deletes the source path and fails if nothing is there; an unknown kind is
      reported and skipped. */
  function Step(fs: FileSystem, content: Path -> Hash, t: Transaction): (r: Option<FileSystem>)
    ensures r.None? <==> t.kind == Remove && t.source !in fs
    ensures r.Some? ==> forall q :: q != Subject(t) ==> Lookup(r.value, q) == Lookup(fs, q)
    ensures r.Some? && !t.kind.Other? ==> Lookup(r.value, Subject(t)) == Effect(t, content)
    ensures r.Some? && t.kind.Other? ==> r.value == fs
  {
    match t.kind
    case Link => Some(fs[t.destination := Symlink(t.source)])
    case Copy => Some(fs[t.destination := Regular(content(t.source))])
    case Remove => if t.source in fs then Some(fs - {t.source}) else None
    case Other(_) => Some(fs)
  }

  /** Apply a list of transactions in order, stopping at the first that raises.
      Only subjects of the list change, and a crash is always a `remove`. */
  function Execute(ts: seq<Transaction>, fs: FileSystem, content: Path -> Hash): (r: Execution)
    ensures r.Crashed? ==> r.at < |ts| && ts[r.at].kind == Remove
    ensures forall q :: q !in Subjects(ts) ==> Lookup(r.fs, q) == Lookup(fs, q)
    decreases |ts|
  {
    if ts == [] then Finished(fs)
    else
      match Step(fs, content, ts[0])
      case None => Crashed(fs, 0)
      case Some(fs') =>
        assert Subjects(ts) == {Subject(ts[0])} + Subjects(ts[1..]) by {
          assert ts == [ts[0]] + ts[1..];
        }
        match Execute(ts[1..], fs', content)
        case Finished(fs'') => Finished(fs'')
        case Crashed(fs'', i) => Crashed(fs'', i + 1)
  }

  /** With distinct subjects, a finished run leaves every subject as its own
      transaction intended, whatever came before or after it in the list. */
  lemma {:induction false} ExecuteEstablishes(ts: seq<Transaction>, fs: FileSystem, content: Path -> Hash)
    requires DistinctSubjects(ts)
    requires Execute(ts, fs, content).Finished?
    ensures forall t :: t in ts && !t.kind.Other? ==>
      Lookup(Execute(ts, fs, content).fs, Subject(t)) == Effect(t, content)
    decreases |ts|
  {
    if ts != [] {
      var fs' := Step(fs, content, ts[0]).value;
      var tail := ts[1..];
      assert DistinctSubjects(tail) by {
        forall i, j | 0 <= i < j < |tail| ensures Subject(tail[i]) != Subject(tail[j]) {
          assert tail[i] == ts[i + 1] && tail[j] == ts[j + 1];
        }
      }
      ExecuteEstablishes(tail, fs', content);
      forall t | t in tail ensures Subject(t) != Subject(ts[0]) {
        var k :| 0 <= k < |tail| && tail[k] == t;
        assert ts[k + 1] == t;
      }
      assert Subject(ts[0]) !in Subjects(tail);
      forall t | t in ts && !t.kind.Other?
        ensures Lookup(Execute(ts, fs, content).fs, Subject(t)) == Effect(t, content)
      {
        if t !in tail {
          assert t == ts[0];
        }
      }
    }
  }

  /** With distinct subjects, a list whose removals all name paths present at
      the start runs to the end: no earlier transaction can delete them. */
  lemma {:induction false} ExecuteCompletes(ts: seq<Transaction>, fs: FileSystem, content: Path -> Hash)
    requires DistinctSubjects(ts)
    requires forall i :: 0 <= i < |ts| && ts[i].kind == Remove ==> ts[i].source in fs
    ensures Execute(ts, fs, content).Finished?
    decreases |ts|
  {
    if ts != [] {
      var fs' := Step(fs, content, ts[0]).value;
      var tail := ts[1..];
      forall i | 0 <= i < |tail| && tail[i].kind == Remove
        ensures tail[i].source in fs'
      {
        assert tail[i] == ts[i + 1];
        assert Subject(ts[0]) != Subject(ts[i + 1]);
        assert Lookup(fs', tail[i].source) == Lookup(fs, tail[i].source);
      }
      assert DistinctSubjects(tail) by {
        forall i, j | 0 <= i < j < |tail| ensures Subject(tail[i]) != Subject(tail[j]) {
          assert tail[i] == ts[i + 1] && tail[j] == ts[j + 1];
        }
      }
      ExecuteCompletes(tail, fs', content);
    }
  }

  /** The command line dry-run mode prints for one transaction, or the
      diagnostic for an unknown kind. */
  function Render(t: Transaction): (line: string)
    ensures t.kind == Link ==> "ln -s " <= line
    ensures t.kind == Copy ==> "cp " <= line
    ensures t.kind == Remove ==> "rm " <= line
    ensures !t.kind.Other? ==> |line| > |Subject(t)| && line[|line| - |Subject(t)|..] == Subject(t)
  {
    match t.kind
    case Link => "ln -s " + t.source + " " + t.destination
    case Copy => "cp " + t.source + " " + t.destination
    case Remove => "rm " + t.source
    case Other(name) => "Unknown transaction type " + name
  }

  /** Whatever spaces the paths contain, a rendered command reads back with
      its own kind, and a diagnostic reads back as no command. */
  lemma RenderedKind(t: Transaction)
    ensures t.kind.Other? <==> ParseCommand(Render(t)).None?
    ensures ParseCommand(Render(t)).Some? ==> ParseCommand(Render(t)).value.kind == t.kind
  {
    match t.kind
    case Link => LinkLineKind(t.source, t.destination);
    case Copy => CopyLineKind(t.source, t.destination);
    case Remove => ParseRemoveLine(t.source);
    case Other(name) => ParseDiagnosticLine(name);
  }

  /** Dry-run mode: one line per transaction, in order. */
  function DryRun(ts: seq<Transaction>): (lines: seq<string>)
    ensures |lines| == |ts|
    ensures forall i :: 0 <= i < |ts| ==> lines[i] == Render(ts[i])
  {
    seq(|ts|, i requires 0 <= i < |ts| => Render(ts[i]))
  }

  /** Index of the first space in `s`, if any. */
  function FirstSpace(s: string): (k: Option<nat>)
    ensures k.Some? ==> k.value < |s| && s[k.value] == ' ' && ' ' !in s[..k.value]
    ensures k.None? ==> ' ' !in s
  {
    if s == [] then None
    else if s[0] == ' ' then Some(0)
    else match FirstSpace(s[1..])
      case None => None
      case Some(k) => assert s[..k + 1] == [s[0]] + s[1..][..k]; Some(k + 1)
  }

  /** Read a rendered command line back into the transaction it performs;
      diagnostics and anything else give `None`. */
  function ParseCommand(line: string): Option<Transaction> {
    if |line| >= 6 && line[..6] == "ln -s " then
      var rest := line[6..];
      match FirstSpace(rest)
      case None => None
      case Some(k) => Some(Transaction(rest[..k], rest[k + 1..], Link))
    else if |line| >= 3 && line[..3] == "cp " then
      var rest := line[3..];
      match FirstSpace(rest)
      case None => None
      case Some(k) => Some(Transaction(rest[..k], rest[k + 1..], Copy))
    else if |line| >= 3 && line[..3] == "rm " then
      var rest := line[3..];
      Some(Transaction(rest, rest, Remove))
    else None
  }

  /** A `ln -s` line reads back as a link whatever spaces its paths contain. */
  lemma LinkLineKind(src: Path, dst: Path)
    ensures ParseCommand("ln -s " + src + " " + dst).Some?
    ensures ParseCommand("ln -s " + src + " " + dst).value.kind == Link
  {
    var line := "ln -s " + src + " " + dst;
    assert line[..6] == "ln -s ";
    assert line[6..] == src + " " + dst;
    assert (src + " " + dst)[|src|] == ' ';
  }

  /** A `cp` line reads back as a copy whatever spaces its paths contain. */
  lemma CopyLineKind(src: Path, dst: Path)
    ensures ParseCommand("cp " + src + " " + dst).Some?
    ensures ParseCommand("cp " + src + " " + dst).value.kind == Copy
  {
    var line := "cp " + src + " " + dst;
    assert line[0] == 'c';
    assert |line| >= 6 ==> line[..6][0] == 'c';
    assert line[..3] == "cp ";
    assert line[3..] == src + " " + dst;
    assert (src + " " + dst)[|src|] == ' ';
  }

  lemma {:induction false} SplitAtSpace(a: string, b: string)
    requires ' ' !in a
    ensures FirstSpace(a + " " + b) == Some(|a|)
    decreases |a|
  {
    var s := a + " " + b;
    if a != [] {
      assert s[0] == a[0];
      assert s[1..] == a[1..] + " " + b;
      SplitAtSpace(a[1..], b);
    }
  }

  lemma ParseLinkLine(src: Path, dst: Path)
    requires ' ' !in src
    ensures ParseCommand("ln -s " + src + " " + dst) == Some(Transaction(src, dst, Link))
  {
    var line := "ln -s " + src + " " + dst;
    assert line[..6] == "ln -s ";
    assert line[6..] == src + " " + dst;
    SplitAtSpace(src, dst);
    assert (src + " " + dst)[..|src|] == src;
    assert (src + " " + dst)[|src| + 1..] == dst;
  }

  lemma ParseCopyLine(src: Path, dst: Path)
    requires ' ' !in src
    ensures ParseCommand("cp " + src + " " + dst) == Some(Transaction(src, dst, Copy))
  {
    var line := "cp " + src + " " + dst;
    assert line[0] == 'c';
    assert |line| >= 6 ==> line[..6][0] == 'c';
    assert line[..3] == "cp ";
    assert line[3..] == src + " " + dst;
    SplitAtSpace(src, dst);
    assert (src + " " + dst)[..|src|] == src;
    assert (src + " " + dst)[|src| + 1..] == dst;
  }

  lemma ParseRemoveLine(p: Path)
    ensures ParseCommand("rm " + p) == Some(Transaction(p, p, Remove))
  {
    var line := "rm " + p;
    assert line[0] == 'r';
    assert |line| >= 6 ==> line[..6][0] == 'r';
    assert line[..3] == "rm ";
    assert line[3..] == p;
  }

  lemma ParseDiagnosticLine(name: string)
    ensures ParseCommand("Unknown transaction type " + name) == None
  {
    var line := "Unknown transaction type " + name;
    assert line[..6][0] == 'U' && line[..3][0] == 'U';
  }

  /** Dry-run output is faithful: every command line reads back as the
      transaction it stands for (paths without spaces, removals planned with
      the same path in both fields), and diagnostics read back as no command. */
  lemma ParseRender(t: Transaction)
    requires ' ' !in t.source && ' ' !in t.destination
    requires t.kind == Remove ==> t.destination == t.source
    ensures t.kind.Other? ==> ParseCommand(Render(t)) == None
    ensures !t.kind.Other? ==> ParseCommand(Render(t)) == Some(t)
  {
    match t.kind
    case Link => ParseLinkLine(t.source, t.destination);
    case Copy => ParseCopyLine(t.source, t.destination);
    case Remove => ParseRemoveLine(t.source);
    case Other(name) => ParseDiagnosticLine(name);
  }
}

=== FILE: filesystems.dfy ===
/** The live filesystem as the linker observes it at managed paths. */
module FileSystems {
  import opened Paths
  import opened Manifests

  /** The node kinds the model covers at a managed path: a symlink (possibly
      dangling), with its unresolved contents, or a regular file, with its
      sha256. Directories and other special files are not modelled. */
  datatype Node = Symlink(target: Path) | Regular(hash: Hash)

  /** Paths that `os.path.lexists` reports, with what is there. */
  type FileSystem = map<Path, Node>
}

=== FILE: manifests.dfy ===
/** The generation manifests the linker reads: for every managed path, where
    its content comes from and how it is placed. */
module Manifests {
  import opened Paths

  /** A lower-case hex sha256 digest; only ever compared for equality. */
  type Hash = string

  /** The `type` string of a manifest entry or a transaction. Python compares
      raw strings, so any other string is representable too. */
  datatype Kind = Link | Copy | Remove | Other(name: string)

  function KindName(k: Kind): string {
    match k
    case Link => "link"
    case Copy => "copy"
    case Remove => "remove"
    case Other(name) => name
  }

  /** A kind as read from its string: the three names the linker dispatches on,
      and every other string as an unrecognised kind. */
  predicate WellNamed(k: Kind) {
    k.Other? ==> k.name !in {"link", "copy", "remove"}
  }

  /** Reading a `type` string: the inverse of `KindName`. */
  function ParseKind(s: string): (k: Kind)
    ensures KindName(k) == s
    ensures WellNamed(k)
  {
    if s == "link" then Link
    else if s == "copy" then Copy
    else if s == "remove" then Remove
    else Other(s)
  }

  lemma ParseKindName(k: Kind)
    requires WellNamed(k)
    ensures ParseKind(KindName(k)) == k
  {
  }

  /** One manifest entry. `hash` is the digest recorded when a `copy` entry was
      placed and is only consulted for entries of the previous generation of
      kind `Copy`; `knownHashes` lists contents the next generation may
      overwrite whatever their provenance. */
  datatype Entry = Entry(source: Path, kind: Kind, hash: Hash, knownHashes: set<Hash>)

  /** A manifest: its schema version and its `files` dictionary, given as the
      keys in iteration order plus the key-to-entry map. */
  datatype Manifest = Manifest(version: int, paths: seq<Path>, files: map<Path, Entry>) {

    /** Dictionary keys are unique, `paths` enumerates exactly them, and every
        kind is one a `type` string can name. */
    predicate Valid() {
      && NoDuplicates(paths)
      && (forall i :: 0 <= i < |paths| ==> paths[i] in files)
      && (forall p :: p in files ==> p in paths)
      && (forall p :: p in files ==> WellNamed(files[p].kind))
    }

    /** Every entry is a `link` or a `copy`, as the schema prescribes. */
    predicate Schema() {
      forall p :: p in files ==> files[p].kind in {Link, Copy}
    }
  }
}

=== FILE: paths.dfy ===
/** POSIX path strings and the two `posixpath` operations the linker uses to
    decide where a symlink points: `dirname` and two-argument `join`. */
module Paths {

  type Path = string

  /** A path that `posixpath.join` treats as overriding everything before it. */
  predicate IsAbsolute(p: Path) {
    |p| > 0 && p[0] == '/'
  }

  /** True when no path occurs twice in `ps` (the keys of a dictionary, in order). */
  predicate NoDuplicates(ps: seq<Path>) {
    forall i, j :: 0 <= i < j < |ps| ==> ps[i] != ps[j]
  }

  predicate AllSlashes(s: string) {
    forall i :: 0 <= i < |s| ==> s[i] == '/'
  }

  /** Length of the prefix of `p` up to and including its last '/', or 0 when
      `p` has no '/'. */
  function HeadLength(p: Path): (n: nat)
    ensures n <= |p|
    ensures n > 0 ==> p[n - 1] == '/'
    ensures forall i :: n <= i < |p| ==> p[i] != '/'
  {
    if |p| == 0 then 0
    else if p[|p| - 1] == '/' then |p|
    else HeadLength(p[..|p| - 1])
  }

  /** `s` with every trailing '/' removed (Python's `rstrip('/')`). */
  function StripTrailingSlashes(s: string): (r: string)
    ensures r <= s
    ensures r == [] || r[|r| - 1] != '/'
    ensures forall i :: |r| <= i < |s| ==> s[i] == '/'
  {
    if |s| > 0 && s[|s| - 1] == '/' then StripTrailingSlashes(s[..|s| - 1]) else s
  }

  /** `posixpath.dirname`: everything before the last '/', with trailing
      slashes removed unless the head consists of slashes only. */
  function DirName(p: Path): (d: Path)
    ensures d <= p && |d| <= HeadLength(p)
    ensures AllSlashes(p[|d|..HeadLength(p)])
    ensures d == [] || d[|d| - 1] != '/' || AllSlashes(d)
    ensures d == [] <==> HeadLength(p) == 0
    ensures AllSlashes(p[..HeadLength(p)]) ==> d == p[..HeadLength(p)]
  {
    var head := p[..HeadLength(p)];
    if head != [] && !AllSlashes(head) then StripTrailingSlashes(head) else head
  }

  /** `posixpath.join(a, b)`: an absolute `b` replaces `a`; otherwise `b` is
      appended, with a '/' inserted unless `a` is empty or already ends in one. */
  function Join(a: Path, b: Path): (r: Path)
    ensures IsAbsolute(b) ==> r == b
    ensures !IsAbsolute(b) ==> a <= r && |r| >= |b| && r[|r| - |b|..] == b
    ensures !IsAbsolute(b) ==> r == a + b || r == a + "/" + b
    ensures !IsAbsolute(b) ==> (r == a + b <==> a == [] || a[|a| - 1] == '/')
  {
    if IsAbsolute(b) then b
    else if a == [] || a[|a| - 1] == '/' then a + b
    else a + "/" + b
  }

  /** The path a symlink stored at `link` with contents `target` designates:
      `os.path.join(os.path.dirname(link), target)`. */
  function Resolve(link: Path, target: Path): (r: Path)
    ensures IsAbsolute(target) ==> r == target
    ensures !IsAbsolute(target) ==> DirName(link) <= r && |r| >= |target| && r[|r| - |target|..] == target
    ensures !IsAbsolute(target) ==> r == DirName(link) + target || r == DirName(link) + "/" + target
    ensures !IsAbsolute(target) ==>
      (r == DirName(link) + target <==> DirName(link) == [] || DirName(link)[|DirName(link)| - 1] == '/')
    ensures IsAbsolute(link) ==> IsAbsolute(r)
  {
    Join(DirName(link), target)
  }

  lemma {:induction false} HeadLengthOfChild(d: Path, name: Path)
    requires '/' !in name
    ensures HeadLength(d + "/" + name) == |d| + 1
    decreases |name|
  {
    var p := d + "/" + name;
    if name == [] {
      assert p[|p| - 1] == '/';
    } else {
      assert p[|p| - 1] == name[|name| - 1];
      assert p[..|p| - 1] == d + "/" + name[..|name| - 1];
      HeadLengthOfChild(d, name[..|name| - 1]);
    }
  }

  /** The parent of `d/name` is `d`, when `d` is a non-empty path not ending in
      '/' and `name` is a single component. */
  lemma DirNameOfChild(d: Path, name: Path)
    requires d != [] && d[|d| - 1] != '/'
    requires '/' !in name
    ensures DirName(d + "/" + name) == d
  {
    var p := d + "/" + name;
    HeadLengthOfChild(d, name);
    var head := p[..|d| + 1];
    assert head == d + "/";
    assert head[|d| - 1] != '/';
    assert head[..|head| - 1] == d;
  }

  /** The parent of a top-level entry `/name` is the root `/`. */
  lemma DirNameOfTopLevel(name: Path)
    requires '/' !in name
    ensures DirName("/" + name) == "/"
  {
    HeadLengthOfChild("", name);
    assert ("/" + name)[..1] == "/";
  }

  /** A relative target of a link at `d/name` is looked up next to the link:
      it resolves to `d/target`. */
  lemma ResolveRelativeSibling(d: Path, name: Path, target: Path)
    requires d != [] && d[|d| - 1] != '/'
    requires '/' !in name
    requires !IsAbsolute(target)
    ensures Resolve(d + "/" + name, target) == d + "/" + target
  {
    DirNameOfChild(d, name);
  }

  /** A relative target of a link at `/name` resolves to `/target`. */
  lemma ResolveRelativeTopLevel(name: Path, target: Path)
    requires '/' !in name
    requires !IsAbsolute(target)
    ensures Resolve("/" + name, target) == "/" + target
  {
    DirNameOfTopLevel(name);
  }
}

=== FILE: planner.dfy ===
/** The two planning passes of the linker: pass 1 classifies every path of the
    next generation, pass 2 plans the removal of stale paths of the previous
    one. Both are pure functions of the two manifests and the live filesystem. */
module Planner {
  import opened Wrappers
  import opened Paths
  import opened Manifests
  import opened FileSystems
  import opened Transactions

  /** What pass 1 does with one path of the next generation. */
  datatype Decision = Emit(t: Transaction) | Problem | NoOp

  /** The result of planning: transactions in order, and the conflicting paths. */
  datatype Plan = Plan(transactions: seq<Transaction>, problems: seq<Path>)

  /** Provenance: the previous generation's entry `oe` says the tool itself put
      `node` at `p`, and the node is unchanged since (same link target, or same
      content digest). */
  predicate Vouches(p: Path, oe: Entry, node: Node) {
    match node
    case Symlink(target) => oe.kind == Link && Resolve(p, target) == oe.source
    case Regular(h) => oe.kind == Copy && h == oe.hash
  }

  /** The next generation pre-authorises overwriting this content. */
  predicate Known(ne: Entry, node: Node) {
    node.Regular? && node.hash in ne.knownHashes
  }

  /** It is safe to replace what is live at `p`: nothing is there, its content
      is pre-authorised, or the previous generation vouches for it. */
  predicate Overwritable(p: Path, oe: Option<Entry>, ne: Entry, live: Option<Node>) {
    || live.None?
    || Known(ne, live.value)
    || (oe.Some? && Vouches(p, oe.value, live.value))
  }

  /** The tool's own previous link at `p` already designates the new source. */
  predicate AlreadyLinked(p: Path, oe: Option<Entry>, ne: Entry, live: Option<Node>) {
    && oe.Some? && oe.value.kind == Link
    && live.Some? && live.value.Symlink?
    && Resolve(p, live.value.target) == ne.source
  }

  /** Pass 1 on one path `p` whose next-generation entry is `ne`, whose
      previous-generation entry (if any) is `oe`, and at which `live` is found. */
  function Classify(p: Path, oe: Option<Entry>, ne: Entry, live: Option<Node>): (d: Decision)
    ensures d.Emit? <==> Overwritable(p, oe, ne, live)
    ensures d.NoOp? <==> !Overwritable(p, oe, ne, live) && AlreadyLinked(p, oe, ne, live)
    ensures d.Problem? <==> !Overwritable(p, oe, ne, live) && !AlreadyLinked(p, oe, ne, live)
    ensures d.Emit? ==> d.t.source == ne.source && d.t.destination == p
    ensures d.Emit? && live.Some? && live.value.Symlink? ==> d.t.kind == Link
    ensures d.Emit? && (live.None? || live.value.Regular?) ==> d.t.kind == ne.kind
    ensures live.Some? && live.value.Symlink? && (oe.None? || oe.value.kind != Link) ==> d.Problem?
  {
    match live
    case None => Emit(Transaction(ne.source, p, ne.kind))
    case Some(Symlink(target)) =>
      if oe.Some? && oe.value.kind == Link then
        var resolved := Resolve(p, target);
        if resolved == oe.value.source then Emit(Transaction(ne.source, p, Link))
        else if resolved == ne.source then NoOp
        else Problem
      else Problem
    case Some(Regular(h)) =>
      if h in ne.knownHashes then Emit(Transaction(ne.source, p, ne.kind))
      else if oe.Some? && oe.value.kind == Copy && h == oe.value.hash then
        Emit(Transaction(ne.source, p, ne.kind))
      else Problem
  }

  /** Pass 1's decision for a path of the next generation. */
  function Decide(p: Path, prev: map<Path, Entry>, next: map<Path, Entry>, fs: FileSystem): Decision
    requires p in next
  {
    Classify(p, Lookup(prev, p), next[p], Lookup(fs, p))
  }

  predicate DistinctDestinations(ts: seq<Transaction>) {
    forall i, j :: 0 <= i < j < |ts| ==> ts[i].destination != ts[j].destination
  }

  /** Pass 1 over the paths of the next generation, in order. Every path gives
      at most one item: each transaction is the `Emit` decision for its
      destination, and each problem a path whose decision is `Problem`. */
  function Pass1(paths: seq<Path>, prev: map<Path, Entry>, next: map<Path, Entry>, fs: FileSystem): (r: Plan)
    requires forall q :: q in paths ==> q in next
    ensures |r.transactions| + |r.problems| <= |paths|
    ensures forall t :: t in r.transactions ==> t.destination in paths && Decide(t.destination, prev, next, fs) == Emit(t)
    ensures forall q :: q in r.problems ==> q in paths && Decide(q, prev, next, fs).Problem?
    decreases |paths|
  {
    if paths == [] then Plan([], [])
    else
      var p := paths[0];
      var rest := Pass1(paths[1..], prev, next, fs);
      assert forall q :: q in paths[1..] ==> q in paths;
      match Decide(p, prev, next, fs)
      case Emit(t) => Plan([t] + rest.transactions, rest.problems)
      case Problem => Plan(rest.transactions, [p] + rest.problems)
      case NoOp => rest
  }

  /** Pass 1 misses nothing: every `Emit` decision is planned and every
      `Problem` decision reported. */
  lemma {:induction false} Pass1Complete(paths: seq<Path>, prev: map<Path, Entry>, next: map<Path, Entry>, fs: FileSystem)
    requires forall q :: q in paths ==> q in next
    ensures forall q :: q in paths && Decide(q, prev, next, fs).Emit? ==>
      Decide(q, prev, next, fs).t in Pass1(paths, prev, next, fs).transactions
    ensures forall q :: q in paths && Decide(q, prev, next, fs).Problem? ==> q in Pass1(paths, prev, next, fs).problems
    decreases |paths|
  {
    if paths != [] {
      assert forall q :: q in paths[1..] ==> q in paths;
      Pass1Complete(paths[1..], prev, next, fs);
      assert forall q :: q in paths ==> q == paths[0] || q in paths[1..];
    }
  }

  /** Over distinct paths, pass 1 plans no destination twice and reports no
      path twice. */
  lemma {:induction false} Pass1Distinct(paths: seq<Path>, prev: map<Path, Entry>, next: map<Path, Entry>, fs: FileSystem)
    requires forall q :: q in paths ==> q in next
    requires NoDuplicates(paths)
    ensures DistinctDestinations(Pass1(paths, prev, next, fs).transactions)
    ensures NoDuplicates(Pass1(paths, prev, next, fs).problems)
    decreases |paths|
  {
    if paths != [] {
      var tail := paths[1..];
      assert forall q :: q in tail ==> q in paths;
      assert paths[0] !in tail by {
        forall i | 0 <= i < |tail| ensures tail[i] != paths[0] {
          assert tail[i] == paths[i + 1];
        }
      }
      assert NoDuplicates(tail) by {
        forall i, j | 0 <= i < j < |tail| ensures tail[i] != tail[j] {
          assert tail[i] == paths[i + 1] && tail[j] == paths[j + 1];
        }
      }
      Pass1Distinct(tail, prev, next, fs);
      var rest := Pass1(tail, prev, next, fs);
      match Decide(paths[0], prev, next, fs)
      case Emit(t) =>
        assert forall u :: u in rest.transactions ==> u.destination != t.destination;
        PrependDistinct(t, rest.transactions);
      case Problem =>
        assert paths[0] !in rest.problems;
        PrependNoDuplicate(paths[0], rest.problems);
      case NoOp =>
    }
  }

  lemma PrependDistinct(t: Transaction, ts: seq<Transaction>)
    requires DistinctDestinations(ts)
    requires forall u :: u in ts ==> u.destination != t.destination
    ensures DistinctDestinations([t] + ts)
  {
    forall i, j | 0 <= i < j < |[t] + ts| ensures ([t] + ts)[i].destination != ([t] + ts)[j].destination {
      assert ([t] + ts)[j] == ts[j - 1];
      if i > 0 {
        assert ([t] + ts)[i] == ts[i - 1];
      } else {
        assert ts[j - 1] in ts;
      }
    }
  }

  lemma PrependNoDuplicate(p: Path, ps: seq<Path>)
    requires NoDuplicates(ps) && p !in ps
    ensures NoDuplicates([p] + ps)
  {
    forall i, j | 0 <= i < j < |[p] + ps| ensures ([p] + ps)[i] != ([p] + ps)[j] {
      assert ([p] + ps)[j] == ps[j - 1];
      if i > 0 {
        assert ([p] + ps)[i] == ps[i - 1];
      }
    }
  }

  /** `x` occurs in `paths` before some occurrence of `y`. */
  predicate Before(x: Path, y: Path, paths: seq<Path>) {
    exists a, b :: 0 <= a < b < |paths| && paths[a] == x && paths[b] == y
  }

  /** `xs` lists paths of `paths` in the order in which they occur there. */
  predicate InPathOrder(xs: seq<Path>, paths: seq<Path>) {
    forall i, j :: 0 <= i < j < |xs| ==> Before(xs[i], xs[j], paths)
  }

  /** The destinations of a transaction list, in order. */
  function Destinations(ts: seq<Transaction>): (ds: seq<Path>)
    ensures |ds| == |ts|
    ensures forall i :: 0 <= i < |ts| ==> ds[i] == ts[i].destination
  {
    seq(|ts|, i requires 0 <= i < |ts| => ts[i].destination)
  }

  lemma DestinationsCons(t: Transaction, ts: seq<Transaction>)
    ensures Destinations([t] + ts) == [t.destination] + Destinations(ts)
  {
  }

  lemma DestinationsWithin(ts: seq<Transaction>, paths: seq<Path>)
    requires forall t :: t in ts ==> t.destination in paths
    ensures forall x :: x in Destinations(ts) ==> x in paths
  {
    forall x | x in Destinations(ts) ensures x in paths {
      var k :| 0 <= k < |ts| && Destinations(ts)[k] == x;
      assert ts[k] in ts;
    }
  }

  /** Skipping the first path keeps an ordered list ordered. */
  lemma InPathOrderTail(xs: seq<Path>, paths: seq<Path>)
    requires paths != [] && InPathOrder(xs, paths[1..])
    ensures InPathOrder(xs, paths)
  {
    forall i, j | 0 <= i < j < |xs| ensures Before(xs[i], xs[j], paths) {
      assert Before(xs[i], xs[j], paths[1..]);
      var a, b :| 0 <= a < b < |paths[1..]| && paths[1..][a] == xs[i] && paths[1..][b] == xs[j];
      assert paths[a + 1] == xs[i] && paths[b + 1] == xs[j];
    }
  }

  /** Putting the first path in front of an ordered list of later paths keeps
      it ordered. */
  lemma InPathOrderCons(xs: seq<Path>, paths: seq<Path>)
    requires paths != [] && InPathOrder(xs, paths[1..])
    requires forall x :: x in xs ==> x in paths[1..]
    ensures InPathOrder([paths[0]] + xs, paths)
  {
    var ys := [paths[0]] + xs;
    var tail := paths[1..];
    forall i, j | 0 <= i < j < |ys| ensures Before(ys[i], ys[j], paths) {
      assert ys[j] == xs[j - 1] && xs[j - 1] in xs;
      var k :| 0 <= k < |tail| && tail[k] == ys[j];
      if i == 0 {
        assert paths[0] == ys[i] && paths[k + 1] == ys[j];
      } else {
        assert ys[i] == xs[i - 1];
        assert Before(xs[i - 1], xs[j - 1], tail);
        var a, b :| 0 <= a < b < |tail| && tail[a] == xs[i - 1] && tail[b] == xs[j - 1];
        assert paths[a + 1] == ys[i] && paths[b + 1] == ys[j];
      }
    }
  }

  /** Pass 1 follows manifest order: its transactions and its problems (and so
      the dry-run lines and the problem messages) come in the order of their
      paths in the next generation. */
  lemma {:induction false} Pass1InOrder(paths: seq<Path>, prev: map<Path, Entry>, next: map<Path, Entry>, fs: FileSystem)
    requires forall q :: q in paths ==> q in next
    ensures InPathOrder(Destinations(Pass1(paths, prev, next, fs).transactions), paths)
    ensures InPathOrder(Pass1(paths, prev, next, fs).problems, paths)
    decreases |paths|
  {
    if paths != [] {
      var tail := paths[1..];
      assert forall q :: q in tail ==> q in paths;
      Pass1InOrder(tail, prev, next, fs);
      var rest := Pass1(tail, prev, next, fs);
      var ds := Destinations(rest.transactions);
      DestinationsWithin(rest.transactions, tail);
      var r := Pass1(paths, prev, next, fs);
      match Decide(paths[0], prev, next, fs)
      case Emit(t) =>
        assert r == Plan([t] + rest.transactions, rest.problems);
        assert t.destination == paths[0];
        DestinationsCons(t, rest.transactions);
        InPathOrderCons(ds, paths);
        InPathOrderTail(rest.problems, paths);
      case Problem =>
        assert r == Plan(rest.transactions, [paths[0]] + rest.problems);
        InPathOrderTail(ds, paths);
        InPathOrderCons(rest.problems, paths);
      case NoOp =>
        assert r == rest;
        InPathOrderTail(ds, paths);
        InPathOrderTail(rest.problems, paths);
    }
  }

  /** Pass 1 reports nothing exactly when no path of the next generation is a
      problem on its own. */
  lemma {:induction false} Pass1ProblemFree(paths: seq<Path>, prev: map<Path, Entry>, next: map<Path, Entry>, fs: FileSystem)
    requires forall q :: q in paths ==> q in next
    ensures Pass1(paths, prev, next, fs).problems == [] <==> forall q :: q in paths ==> !Decide(q, prev, next, fs).Problem?
    decreases |paths|
  {
    if paths != [] {
      assert forall q :: q in paths[1..] ==> q in paths;
      Pass1ProblemFree(paths[1..], prev, next, fs);
      assert forall q :: q in paths ==> q == paths[0] || q in paths[1..];
    }
  }

  /** Pass 2 on one stale path `p` (in the previous generation, not in the
      next): remove it only if the previous generation vouches for what is there. */
  function ClassifyStale(p: Path, oe: Entry, live: Option<Node>): (r: Option<Transaction>)
    ensures r.Some? <==> live.Some? && Vouches(p, oe, live.value)
    ensures r.Some? ==> r.value == Transaction(p, p, Remove)
  {
    match live
    case None => None
    case Some(Symlink(target)) =>
      if oe.kind != Link then None
      else if Resolve(p, target) == oe.source then Some(Transaction(p, p, Remove))
      else None
    case Some(Regular(h)) =>
      if oe.kind != Copy then None
      else if h == oe.hash then Some(Transaction(p, p, Remove))
      else None
  }

  /** Tool-placed, unchanged stale path: pass 2 removes exactly these. */
  predicate Removable(p: Path, prev: map<Path, Entry>, next: map<Path, Entry>, fs: FileSystem) {
    p in prev && p !in next && p in fs && Vouches(p, prev[p], fs[p])
  }

  /** Pass 2 over the paths of the previous generation, in order. It only ever
      emits removals, one per removable stale path, and reports no problem. */
  function Pass2(paths: seq<Path>, prev: map<Path, Entry>, next: map<Path, Entry>, fs: FileSystem): (r: seq<Transaction>)
    requires forall q :: q in paths ==> q in prev
    ensures |r| <= |paths|
    ensures forall t :: t in r ==> t == Transaction(t.source, t.source, Remove) && t.source in paths && Removable(t.source, prev, next, fs)
    ensures forall q :: q in paths && Removable(q, prev, next, fs) ==> Transaction(q, q, Remove) in r
    ensures NoDuplicates(paths) ==> DistinctSubjects(r)
    decreases |paths|
  {
    if paths == [] then []
    else
      var p := paths[0];
      var rest := Pass2(paths[1..], prev, next, fs);
      assert forall q :: q in paths[1..] ==> q in paths;
      if p in next then rest
      else
        match ClassifyStale(p, prev[p], Lookup(fs, p))
        case None => rest
        case Some(t) => [t] + rest
  }

  /** One step of pass 2: the first path adds its own removal or nothing. */
  lemma Pass2Step(paths: seq<Path>, prev: map<Path, Entry>, next: map<Path, Entry>, fs: FileSystem)
    requires paths != [] && forall q :: q in paths ==> q in prev
    ensures forall q :: q in paths[1..] ==> q in prev
    ensures || Pass2(paths, prev, next, fs) == Pass2(paths[1..], prev, next, fs)
            || Pass2(paths, prev, next, fs) == [Transaction(paths[0], paths[0], Remove)] + Pass2(paths[1..], prev, next, fs)
  {
    assert forall q :: q in paths[1..] ==> q in paths;
  }

  /** Pass 2 follows manifest order: its removals come in the order of their
      paths in the previous generation. */
  lemma {:induction false} Pass2InOrder(paths: seq<Path>, prev: map<Path, Entry>, next: map<Path, Entry>, fs: FileSystem)
    requires forall q :: q in paths ==> q in prev
    ensures InPathOrder(Destinations(Pass2(paths, prev, next, fs)), paths)
    decreases |paths|
  {
    if paths != [] {
      var tail := paths[1..];
      Pass2Step(paths, prev, next, fs);
      Pass2InOrder(tail, prev, next, fs);
      var rest := Pass2(tail, prev, next, fs);
      DestinationsWithin(rest, tail);
      if Pass2(paths, prev, next, fs) == rest {
        InPathOrderTail(Destinations(rest), paths);
      } else {
        DestinationsCons(Transaction(paths[0], paths[0], Remove), rest);
        InPathOrderCons(Destinations(rest), paths);
      }
    }
  }

  /** With a schema-conforming next generation, pass 1 only places links and
      copies, each at its own destination, which is a next-generation path. */
  lemma Pass1Subjects(prev: map<Path, Entry>, next: Manifest, fs: FileSystem)
    requires next.Valid() && next.Schema()
    ensures var a := Pass1(next.paths, prev, next.files, fs).transactions;
      && DistinctSubjects(a)
      && forall t :: t in a ==> t.kind in {Link, Copy} && Subject(t) == t.destination && t.destination in next.files
  {
    var plan := Pass1(next.paths, prev, next.files, fs);
    var a := plan.transactions;
    forall t | t in a ensures t.kind in {Link, Copy} && Subject(t) == t.destination && t.destination in next.files {
      var p := t.destination;
      assert p in next.paths;
      var ne := next.files[p];
      assert ne.kind in {Link, Copy};
      assert Classify(p, Lookup(prev, p), ne, Lookup(fs, p)) == Emit(t);
    }
    Pass1Distinct(next.paths, prev, next.files, fs);
    forall i, j | 0 <= i < j < |a| ensures Subject(a[i]) != Subject(a[j]) {
      assert a[i] in a && a[j] in a;
    }
  }

  lemma DistinctSubjectsConcat(a: seq<Transaction>, b: seq<Transaction>)
    requires DistinctSubjects(a) && DistinctSubjects(b)
    requires forall s, t :: s in a && t in b ==> Subject(s) != Subject(t)
    ensures DistinctSubjects(a + b)
  {
    var ts := a + b;
    forall i, j | 0 <= i < j < |ts| ensures Subject(ts[i]) != Subject(ts[j]) {
      if j < |a| {
        assert ts[i] == a[i] && ts[j] == a[j];
      } else if i >= |a| {
        assert ts[i] == b[i - |a|] && ts[j] == b[j - |a|];
      } else {
        assert ts[i] == a[i] && ts[j] == b[j - |a|];
        assert a[i] in a && b[j - |a|] in b;
      }
    }
  }

  /** With schema-conforming manifests, the whole planned list (pass 1 then
      pass 2) never names a live path twice, and every removal names a path
      that exists when planning ends. */
  lemma PlannedSubjectsDistinct(prev: Manifest, next: Manifest, fs: FileSystem)
    requires prev.Valid() && next.Valid() && next.Schema()
    ensures var ts := Pass1(next.paths, prev.files, next.files, fs).transactions + Pass2(prev.paths, prev.files, next.files, fs);
      && DistinctSubjects(ts)
      && (forall t :: t in ts && t.kind == Remove ==> t.source in fs)
  {
    var a := Pass1(next.paths, prev.files, next.files, fs).transactions;
    var b := Pass2(prev.paths, prev.files, next.files, fs);
    Pass1Subjects(prev.files, next, fs);
    forall t: Transaction | t in b ensures Subject(t) !in next.files && t.source in fs {
      assert Removable(t.source, prev.files, next.files, fs);
    }
    DistinctSubjectsConcat(a, b);
    forall t: Transaction | t in a + b && t.kind == Remove ensures t.source in fs {
      assert t in a || t in b;
    }
  }

  /** A regular file at a next-generation path that the previous generation
      does not list, with content not pre-authorised, is reported and never
      overwritten. */
  lemma UnmanagedFileIsProblem(prev: map<Path, Entry>, next: Manifest, fs: FileSystem, p: Path)
    requires next.Valid()
    requires p in next.files && p !in prev
    requires p in fs && fs[p].Regular? && fs[p].hash !in next.files[p].knownHashes
    ensures var plan := Pass1(next.paths, prev, next.files, fs);
      && p in plan.problems
      && forall t :: t in plan.transactions ==> t.destination != p
  {
    Pass1Complete(next.paths, prev, next.files, fs);
  }

  /** Nothing live at a next-generation path: exactly one transaction places
      the entry there, and it is no problem. */
  lemma FreshPathIsPlaced(prev: map<Path, Entry>, next: Manifest, fs: FileSystem, p: Path)
    requires next.Valid()
    requires p in next.files && p !in fs
    ensures var plan := Pass1(next.paths, prev, next.files, fs);
      && Transaction(next.files[p].source, p, next.files[p].kind) in plan.transactions
      && (forall t :: t in plan.transactions && t.destination == p ==> t == Transaction(next.files[p].source, p, next.files[p].kind))
      && p !in plan.problems
  {
    Pass1Complete(next.paths, prev, next.files, fs);
  }

  /** A link the previous generation placed and nobody retargeted is always
      retargeted to the new source, never reported. */
  lemma UnchangedLinkIsRetargeted(prev: map<Path, Entry>, next: Manifest, fs: FileSystem, p: Path)
    requires next.Valid()
    requires p in next.files && p in prev && prev[p].kind == Link
    requires p in fs && fs[p].Symlink? && Resolve(p, fs[p].target) == prev[p].source
    ensures var plan := Pass1(next.paths, prev, next.files, fs);
      && Transaction(next.files[p].source, p, Link) in plan.transactions
      && p !in plan.problems
  {
    Pass1Complete(next.paths, prev, next.files, fs);
  }

  /** A stale copy whose content drifted from the recorded digest is left in
      place: no transaction of pass 2 touches it. */
  lemma DriftedStaleCopyIsKept(prev: Manifest, next: map<Path, Entry>, fs: FileSystem, p: Path)
    requires prev.Valid()
    requires p in prev.files && p !in next && prev.files[p].kind == Copy
    requires p in fs && fs[p].Regular? && fs[p].hash != prev.files[p].hash
    ensures forall t :: t in Pass2(prev.paths, prev.files, next, fs) ==> Subject(t) != p
  {
  }
}

=== FILE: scenarios.dfy ===
/** Concrete activations of a single managed path, `/etc/foo`. */
module Scenarios {
  import opened Wrappers
  import opened Paths
  import opened Manifests
  import opened FileSystems
  import opened Transactions
  import opened Planner
  import opened Executor
  import opened Activation

  const Apply := Mode(false, false)

  function Only(e: Entry): Manifest {
    Manifest(1, ["/etc/foo"], map["/etc/foo" := e])
  }

  function NoFiles(): Manifest {
    Manifest(1, [], map[])
  }

  /** Copying any store path yields content with digest "hb". */
  function StoreDigest(source: Path): Hash {
    "hb"
  }

  /** Nothing at `/etc/foo` and no previous generation: one link is planned
      and made, with no problem. */
  lemma FreshLinkIsCreated()
    ensures Activate(NoFiles(), Only(Entry("/store/a", Link, "", {})), map[], StoreDigest, Apply)
      == Outcome(0, [], [Transaction("/store/a", "/etc/foo", Link)], [], map["/etc/foo" := Symlink("/store/a")])
  {
  }

  /** The same, in dry-run mode: the link is only rendered. */
  lemma FreshLinkIsRendered()
    ensures Activate(NoFiles(), Only(Entry("/store/a", Link, "", {})), map[], StoreDigest, Mode(true, false))
      == Outcome(0, [], [Transaction("/store/a", "/etc/foo", Link)], ["ln -s /store/a /etc/foo"], map[])
  {
    var t := Transaction("/store/a", "/etc/foo", Link);
    var next := Only(Entry("/store/a", Link, "", {}));
    var r := Activate(NoFiles(), next, map[], StoreDigest, Mode(true, false));
    assert Pass1(next.paths, map[], next.files, map[]) == Plan([t], []);
    assert Planned(NoFiles(), next, map[]) == [t];
    assert r.problems == [] && r.planned == [t];
    assert Render(t) == "ln -s " + t.source + " " + t.destination;
    assert "ln -s " + "/store/a" == "ln -s /store/a";
    assert "ln -s /store/a" + " " == "ln -s /store/a ";
    assert "ln -s /store/a " + "/etc/foo" == "ln -s /store/a /etc/foo";
    assert DryRun([t]) == [Render(t)];
  }

  /** A user's file at `/etc/foo` with unknown content: one problem, exit
      status 1, nothing planned or changed. */
  lemma UserFileBlocks()
    ensures Activate(NoFiles(), Only(Entry("/store/a", Link, "", {})), map["/etc/foo" := Regular("user")], StoreDigest, Apply)
      == Outcome(1, ["/etc/foo"], [], [], map["/etc/foo" := Regular("user")])
  {
  }

  /** The same file with pre-authorised content is replaced. */
  lemma KnownFileIsReplaced()
    ensures Activate(NoFiles(), Only(Entry("/store/a", Link, "", {"user"})), map["/etc/foo" := Regular("user")], StoreDigest, Apply)
      == Outcome(0, [], [Transaction("/store/a", "/etc/foo", Link)], [], map["/etc/foo" := Symlink("/store/a")])
  {
  }

  /** A tool-placed, unchanged link that the next generation drops is removed. */
  lemma StaleLinkIsRemoved()
    ensures Activate(Only(Entry("/store/a", Link, "", {})), NoFiles(), map["/etc/foo" := Symlink("/store/a")], StoreDigest, Apply)
      == Outcome(0, [], [Transaction("/etc/foo", "/etc/foo", Remove)], [], map[])
  {
  }

  /** Check-only mode stops after a clean gate, before pass 2. */
  lemma CheckOnlyStopsAtGate()
    ensures Activate(Only(Entry("/store/a", Link, "", {})), NoFiles(), map["/etc/foo" := Symlink("/store/a")], StoreDigest, Mode(false, true))
      == Outcome(0, [], [], [], map["/etc/foo" := Symlink("/store/a")])
  {
  }

  /** Link targets are joined, not normalised: a relative link `../store/a`
      at `/etc/foo` designates `/etc/../store/a`. */
  lemma RelativeTargetIsJoined()
    ensures Resolve("/etc/foo", "../store/a") == "/etc/../store/a"
  {
    ResolveRelativeSibling("/etc", "foo", "../store/a");
    assert "/etc" + "/" + "foo" == "/etc/foo";
    assert "/etc" + "/" + "../store/a" == "/etc/../store/a";
  }

  /** So such a link does not match the recorded `/store/a`, and the path is
      a problem even though it reaches the same file. */
  lemma RelativeLinkIsProblem()
    ensures Activate(Only(Entry("/store/a", Link, "", {})), Only(Entry("/store/b", Link, "", {})),
                     map["/etc/foo" := Symlink("../store/a")], StoreDigest, Apply).problems == ["/etc/foo"]
  {
    RelativeTargetIsJoined();
    var prev := Only(Entry("/store/a", Link, "", {}));
    var next := Only(Entry("/store/b", Link, "", {}));
    var fs := map["/etc/foo" := Symlink("../store/a")];
    assert "/etc/../store/a" != "/store/a" && "/etc/../store/a" != "/store/b";
    assert Decide("/etc/foo", prev.files, next.files, fs) == Problem;
  }

  /** The plan of the migration run: pass 1 re-links the path and pass 2 has
      nothing to remove. */
  lemma MigrationPlan()
    ensures Pass1(Only(Entry("/store/b", Copy, "hb", {})).paths, Only(Entry("/store/a", Link, "", {})).files,
                  Only(Entry("/store/b", Copy, "hb", {})).files, map["/etc/foo" := Symlink("/store/a")])
      == Plan([Transaction("/store/b", "/etc/foo", Link)], [])
    ensures Planned(Only(Entry("/store/a", Link, "", {})), Only(Entry("/store/b", Copy, "hb", {})), map["/etc/foo" := Symlink("/store/a")])
      == [Transaction("/store/b", "/etc/foo", Link)]
  {
    var prev := Only(Entry("/store/a", Link, "", {}));
    var next := Only(Entry("/store/b", Copy, "hb", {}));
    var fs := map["/etc/foo" := Symlink("/store/a")];
    var t := Transaction("/store/b", "/etc/foo", Link);
    assert Decide("/etc/foo", prev.files, next.files, fs) == Emit(t);
    assert Pass2(prev.paths, prev.files, next.files, fs) == [];
  }

  /** Migrating an unchanged link entry to a copy entry re-links instead of
      copying: pass 1 always plans `link` over a vouched symlink. */
  lemma LinkToCopyMigrationRelinks()
    ensures Activate(Only(Entry("/store/a", Link, "", {})), Only(Entry("/store/b", Copy, "hb", {})),
                     map["/etc/foo" := Symlink("/store/a")], StoreDigest, Apply)
      == Outcome(0, [], [Transaction("/store/b", "/etc/foo", Link)], [], map["/etc/foo" := Symlink("/store/b")])
  {
    var fs := map["/etc/foo" := Symlink("/store/a")];
    var t := Transaction("/store/b", "/etc/foo", Link);
    MigrationPlan();
    assert Execute([t], fs, StoreDigest) == Finished(map["/etc/foo" := Symlink("/store/b")]);
  }

  /** The next activation with the same copy entry then finds a symlink where
      its previous generation recorded a copy, and stops with a problem. */
  lemma MigratedLinkBlocksNextRun()
    ensures Activate(Only(Entry("/store/b", Copy, "hb", {})), Only(Entry("/store/b", Copy, "hb", {})),
                     map["/etc/foo" := Symlink("/store/b")], StoreDigest, Apply).problems == ["/etc/foo"]
  {
    var e := Only(Entry("/store/b", Copy, "hb", {}));
    assert Decide("/etc/foo", e.files, e.files, map["/etc/foo" := Symlink("/store/b")]) == Problem;
  }
}

=== FILE: transactions.dfy ===
/** The unit of mutation the planner produces and the executor consumes. */
module Transactions {
  import opened Paths
  import opened Manifests

  /** `source` is the store path and `destination` the managed path; a `remove`
      carries the managed path in `source` (and, as planned, in both). */
  datatype Transaction = Transaction(source: Path, destination: Path, kind: Kind)

  /** The one live path a transaction may change. */
  function Subject(t: Transaction): Path {
    if t.kind == Remove then t.source else t.destination
  }

  function Subjects(ts: seq<Transaction>): set<Path> {
    set t | t in ts :: Subject(t)
  }

  /** No live path is the subject of two transactions. */
  predicate DistinctSubjects(ts: seq<Transaction>) {
    forall i, j :: 0 <= i < j < |ts| ==> Subject(ts[i]) != Subject(ts[j])
  }
}

=== FILE: wrappers.dfy ===
/** The optional-value datatype used wherever the linker asks "is there one?":
    a manifest entry for a path, a live node at a path, a planned removal.
    `Lookup` reads a map that way. */
module Wrappers {

  datatype Option<+T> = None | Some(value: T)

  /** The value a map holds at a key, if any. */
  function Lookup<K, V>(m: map<K, V>, k: K): (r: Option<V>)
    ensures r.Some? <==> k in m
    ensures r.Some? ==> r.value == m[k]
  {
    if k in m then Some(m[k]) else None
  }
}
